=== FILE: README.md ===
# Looking-for-group dungeon simulator, modelled in Dafny

KuaP2.cpp simulates a queue of players (tanks, healers and dps) who are
grouped into parties of one tank, one healer and three dps. Each party is
sent to one of `n` dungeon instances. The dispatcher `createParty` waits on a
condition variable until an instance is free or no party can be formed
any more. It then forms a party and scans the instances round-robin from a
static cursor for one that is not active. It hands the party to a new
thread running `runInstance`, or stops. Each `runInstance` thread has two
locked sections. The first marks its instance active and adds one party
and the party's duration to that instance's statistics. The second clears
the flag and decrements `InstancesActive`. The parameters come from a
`key=value` file read by `readConfig`.

The model has three modules (plus `Wrappers` for `Option`/`Result`):

- `Config` (config.dfy): `readConfig` as a loop method, `ReadConfig`, proved
  equal to pure functions for the line parser (`ParseLine`, which follows
  `getline(ss, key, '=') && ss >> value`), the reading loop (`Collect`) and
  the checks (`Validate`); `exit(1)` is an `Err` result.
- `Dungeon` (dungeon.dfy): the shared state as a value, `State`, and every
  locked section as one atomic transition: `Admit` (one pass of
  `createParty` after its wait), `Start` and `Finish` (the two sections of
  `runInstance`). Spawned threads are a sequence of `Worker(slot, duration,
  phase)`. The invariant `Inv` is proved to hold along every interleaving
  (`RunKeepsInv`).
- `Simulation` (simulation.dfy): the globals as a class `Simulator` with an
  `array<InstanceStats>`. Its methods update it in place. `Admission`,
  `StartInstance` and `FinishInstance` are proved equal to `Admit`, `Start`
  and `Finish`, and `RunToEnd`, `Join`, `AdmitNext` and `Pass` to their
  compositions. `CreateParty` and `JoinAll` are proved to keep `Inv` and to
  end in the state `main()` relies on. The scan is the loop method
  `FindFreeSlot`, `createParty` is `CreateParty`, and `main()` is
  `Simulate`.

A slot's `isActive` flag is set only when its thread starts, not when the
party is dispatched. The invariant is therefore `#active slots <=
InstancesActive <= n`, not equality. The same gap lets the scan give a slot
whose thread has not started yet to a second party.
`Dungeon.TwoThreadsCanShareASlot` exhibits such a run: two threads run in
slot 0 at the same time. The model keeps this behaviour as written.

## Model

| member | source | states |
|---|---|---|
| Config.SkipSpaces | KuaP2.cpp:73 | the result is the suffix left after the leading white space; what was dropped is all white space and the result does not start with white space |
| Config.DigitRun | KuaP2.cpp:73 | the length of the longest prefix made of decimal digits |
| Config.FindEq | KuaP2.cpp:73 | the index of the first '=' (or the length when there is none); no earlier character is '=' |
| Config.ParseLine | KuaP2.cpp:68-73 | a parsed line's key is the text before its first '=' and contains no '='; the value fits in a 32-bit int |
| Config.ParseInt | KuaP2.cpp:73 | `ss >> value`: no contract of its own; its behaviour is stated by ParseIntShow (every 32-bit int in decimal reads back), with SkipSpaces and DigitRun characterising the white space it skips and the digits it takes, and by ParseLine's value range |
| Config.Collect | KuaP2.cpp:66-82 | the reading loop as a function: no contract of its own; its behaviour is stated by CollectFailsOnNegative, CollectKeepsLastValue and CollectErrSticky, and ReadConfig is proved to compute it |
| Config.Validate | KuaP2.cpp:84-102 | the checks after reading: no contract of its own; its behaviour is stated by FirstMissing and ConfigRejectsMissingOrInverted |
| Config.Configure | KuaP2.cpp:60-104 | reading followed by the checks: no contract of its own; its behaviour is stated by ConfigRejectsNegative, ConfigRejectsMissingOrInverted and ConfigOkIsValid, and ReadConfig is proved to compute it |
| Config.FirstMissing | KuaP2.cpp:85-93 | none is missing exactly when every required key is in the map; otherwise the first absent key in n, t, h, d, t1, t2 order |
| Config.ReadConfig | KuaP2.cpp:60-104 | the loop method returns exactly the result of reading the lines and then validating them |
| Config.CollectErrSticky | KuaP2.cpp:76-79 | once a negative value has stopped the reading, later lines do not change the result |
| Config.CollectFailsOnNegative | KuaP2.cpp:66-82 | reading fails if and only if some parsed line has a negative value, and the error names the key of the first such line |
| Config.CollectKeepsLastValue | KuaP2.cpp:66-82 | after a successful read the map's keys are exactly the keys of the parsed lines, each with the value of the last line carrying it (a later duplicate overwrites), and every value is >= 0 |
| Config.ConfigRejectsNegative | KuaP2.cpp:76-79 | a negative value anywhere makes readConfig fail with a negative-value error |
| Config.ConfigRejectsMissingOrInverted | KuaP2.cpp:84-100 | without negative values, a required key that no line gives is reported as missing; with all of them present, readConfig succeeds if and only if t1 <= t2 |
| Config.ConfigOkIsValid | KuaP2.cpp:60-104 | a successful result holds all six keys, only values >= 0, and t1 <= t2 |
| Config.ParseIntShow | KuaP2.cpp:73 | every 32-bit int written in decimal reads back as itself |
| Config.ParseLineRoundTrip | KuaP2.cpp:68-80 | a line `key=value` with no '=' in the key reads back as (key, value) |
| Dungeon.CanFormParty | KuaP2.cpp:141 | the party threshold (1 tank, 1 healer, 3 dps): no contract of its own; used by Admit and by AdmitFormsWholeParty |
| Dungeon.MayAdmit | KuaP2.cpp:139 | createParty's wait predicate: no contract of its own; it guards Admit, and AdmitFindsSlot states what it guarantees |
| Dungeon.FirstFree | KuaP2.cpp:148-161 | the scan's choice: no contract of its own; its behaviour is stated by FirstFreeSpec, ScanVisitsEachSlotOnce and RoundRobinWhenAllFree, and FindFreeSlot is proved to compute it |
| Dungeon.Admit | KuaP2.cpp:138-169 | one pass of createParty after its wait: no contract of its own; its behaviour is stated by AdmitFormsWholeParty, AdmitFindsSlot, AdmitPreservesInv and AdmitMakesProgress, and Simulator.Admission is proved equal to it |
| Dungeon.Start | KuaP2.cpp:109-116 | runInstance's first locked section: no contract of its own; its behaviour is stated by WorkerStepsAreLocal and StartPreservesInv, and Simulator.StartInstance is proved equal to it |
| Dungeon.Finish | KuaP2.cpp:118-128 | runInstance's second locked section: no contract of its own; its behaviour is stated by WorkerStepsAreLocal and FinishPreservesInv, and Simulator.FinishInstance is proved equal to it |
| Dungeon.Initial | KuaP2.cpp:190-206 | main()'s state before createParty (n empty slots, cursor 0, keepRunning set, no threads): no contract of its own; InitialInv states that it satisfies the invariant |
| Dungeon.Formations | KuaP2.cpp:141-145 | the number of parties is min(t, h, d / 3) |
| Dungeon.Offset | KuaP2.cpp:151 | the slot visited at step i of the scan is in [0, n) |
| Dungeon.FreeOffset | KuaP2.cpp:148-161 | the first step at or after i whose slot is not active; every slot visited before it is active; none means every remaining slot is active |
| Dungeon.ScanVisitsEachSlotOnce | KuaP2.cpp:148-151 | the n steps of the scan from any cursor visit pairwise different slots and reach every slot |
| Dungeon.FirstFreeSpec | KuaP2.cpp:148-161 | the scan picks a slot in range that is not active, and every slot visited before it is active; if it picks none, every slot is active |
| Dungeon.RoundRobinWhenAllFree | KuaP2.cpp:151-158 | with every slot free the scan takes the cursor's slot and the cursor moves to the next slot, wrapping at n |
| Dungeon.ActiveBound | KuaP2.cpp:107-171 | under the invariant, #active slots <= InstancesActive <= n, and InstancesActive >= 0 |
| Dungeon.AdmitFindsSlot | KuaP2.cpp:139-161 | when the wait is over and a party is formed, the scan always finds a free slot |
| Dungeon.InitialInv | KuaP2.cpp:190-208 | the state main() builds satisfies the invariant |
| Dungeon.AdmitFormsWholeParty | KuaP2.cpp:141-168 | an admission pass takes exactly 1 tank, 1 healer and 3 dps and dispatches one thread to the scanned slot, with the cursor moved past it; when no party can be formed, it changes only keepRunning |
| Dungeon.AdmitPreservesInv | KuaP2.cpp:136-170 | an admission pass keeps the invariant: counters >= 0, cursor in range, InstancesActive equal to the unfinished threads and <= n, every active slot held by a running thread, each slot's count and time equal to those of the threads started in it, totals equal to the started threads |
| Dungeon.DispatchKeepsSlotsServed | KuaP2.cpp:155-156 | a thread dispatched but not started changes no slot's count or time |
| Dungeon.StartKeepsSlotsServed | KuaP2.cpp:111-113 | a thread's first locked section adds one party and its duration to its own slot, so each slot still holds the count and time of the threads started in it |
| Dungeon.FinishKeepsSlotsServed | KuaP2.cpp:120-121 | a thread's second locked section changes no slot's count or time |
| Dungeon.StartPreservesInv | KuaP2.cpp:109-116 | a thread's first locked section keeps the invariant and its slot is in range |
| Dungeon.FinishPreservesInv | KuaP2.cpp:118-128 | a thread's second locked section keeps the invariant and its slot is in range |
| Dungeon.WorkerStepsAreLocal | KuaP2.cpp:109-128 | start adds one party and the duration to its own slot and sets its flag; finish clears that flag and decrements InstancesActive; no other slot or counter changes |
| Dungeon.DispatchedWhenStopped | KuaP2.cpp:163-168 | when keepRunning is cleared, exactly min(t, h, d / 3) parties have been dispatched |
| Dungeon.AdmitMakesProgress | KuaP2.cpp:136-170 | while a party can be formed, fewer than min(t, h, d / 3) have been; each pass either lowers tanks + healers + dps by 5 or ends the loop with all parties dispatched |
| Dungeon.SummaryWhenAllDone | KuaP2.cpp:46-57 | once every thread has finished, no slot is active, InstancesActive is 0, the counts add up to the number of threads and the times to the sum of their durations |
| Dungeon.ServedBounds | KuaP2.cpp:112-113 | of threads whose durations lie in [lo, hi], those started in one slot number between 0 and all of them, and their durations add up to between lo and hi times that number |
| Dungeon.SlotTotalsWithinBounds | KuaP2.cpp:46-57 | under the invariant, with every duration in [t1, t2], each slot's count is between 0 and the number of dispatched threads and its total time between t1 and t2 times its count |
| Dungeon.StopIsFinal | KuaP2.cpp:163-168 | no locked section taken after keepRunning is cleared sets it again or dispatches a thread |
| Dungeon.StoppedStaysStopped | KuaP2.cpp:133-171 | along any run, once keepRunning is cleared it stays cleared and no further thread is dispatched |
| Dungeon.StepPreservesInv | KuaP2.cpp:107-171 | any one locked section, taken by createParty or by any thread, keeps the invariant |
| Dungeon.RunKeepsInv | KuaP2.cpp:107-171 | every state of every interleaving from main()'s initial state satisfies the invariant |
| Dungeon.TwoThreadsCanShareASlot | KuaP2.cpp:112-158 | there is a run with 3 slots in which two dispatched threads run in slot 0 at the same time |
| Simulation.Simulator.constructor | KuaP2.cpp:190-206 | the object starts as main()'s initial state and satisfies the invariant |
| Simulation.Simulator.Admission | KuaP2.cpp:138-169 | one pass of createParty's loop updates the fields exactly as Admit does and keeps the invariant |
| Simulation.Simulator.StartInstance | KuaP2.cpp:109-116 | the first locked section updates the array and the thread exactly as Start does and keeps the invariant |
| Simulation.Simulator.FinishInstance | KuaP2.cpp:118-128 | the second locked section updates the array, InstancesActive and the thread exactly as Finish does and keeps the invariant |
| Simulation.Simulator.RunToEnd | KuaP2.cpp:107-130 | a pending thread's slot is in range, and the new state is Finish applied after Start: its slot gains one party and the duration and ends not active, InstancesActive drops by one, the thread ends Done; nothing else changes |
| Simulation.Simulator.Join | KuaP2.cpp:209-212 | `join` on one thread: a thread not yet started goes through Start and Finish, a running one through Finish, a finished one changes nothing; the thread ends Done and the counters, keepRunning and the cursor are unchanged |
| Simulation.Simulator.AdmitNext | KuaP2.cpp:139-169 | an admission pass with the next duration in order: the new state is Admit of the old one (the slot taken, the cursor after it, the counters), it keeps the loop invariant, and it lowers tanks or ends the loop |
| Simulation.Simulator.Pass | KuaP2.cpp:136-170 | when the wait predicate holds, the new state is Admit of the old one with the next duration; otherwise the oldest pending thread's Start then Finish, and `oldest` moves on; either way the loop invariant is kept and the termination measure drops |
| Simulation.Simulator.CreateParty | KuaP2.cpp:133-171 | createParty terminates with keepRunning cleared after dispatching exactly min(t, h, d / 3) parties with the given durations in order; the counters are what is left |
| Simulation.Simulator.JoinAll | KuaP2.cpp:209-212 | every thread ends Done with its slot and duration unchanged; the role counters, keepRunning and the cursor stay the same; the invariant is kept |
| Simulation.NextDuration | KuaP2.cpp:154 | the value the distribution yields for the next party, taken from the duration sequence: no contract of its own; AdmitNext, Pass and CreateParty state how it is used |
| Simulation.FindFreeSlot | KuaP2.cpp:148-161 | the scan loop returns the scan's choice: a slot in range that is not active, or none only when every slot is active |
| Simulation.NothingPending | KuaP2.cpp:118-128 | with every thread finished InstancesActive is 0, and a party that can still be formed is one of the min(t, h, d / 3) |
| Simulation.Simulate | KuaP2.cpp:190-219 | the summary has n slots, none active; each slot's count and time are those of the dispatched threads that ran in it, the count between 0 and min(t, h, d / 3) and the time between t1 and t2 times the count; the counts add up to min(t, h, d / 3) and the times to the sum of the first that many durations; the players left over are t, h and d minus what the parties used |

## Left out

- Threads, the mutex, the condition variable, `notify_one`/`notify_all` and `sleep_for` are not modelled. Each locked section is one atomic transition, and `Dungeon.IsRun` allows any interleaving of them.
- Simulation.Simulator.CreateParty: runs one interleaving only. Whenever the wait predicate fails, the oldest pending thread runs both its sections before the next pass. The other interleavings are covered by `Dungeon.RunKeepsInv` on the value model, not by the class.
- Simulation.Simulator.JoinAll: states the final slot statistics only through the invariant `Inv` (each slot holds the count and time of the threads started in it), not as a function of the old array; each single join is stated exactly by `Simulation.Simulator.Join`.
- Simulation.Simulator.CreateParty: states the final slot statistics and cursor only through the invariant `Inv`; each pass is stated exactly by `Simulation.Simulator.Pass`.
- Simulation.Simulate: requires `n > 0` or no party formable. With no instance and enough players, the wait at KuaP2.cpp:139 never returns and the program blocks forever.
- Simulation.Simulate: requires at least min(t, h, d / 3) durations. The `mt19937` engine and `uniform_int_distribution` are replaced by this input sequence, each value in [t1, t2].
- `currentTimestamp`, all console output (including the status lists at KuaP2.cpp:124-127) and the `checkInstance` monitor (KuaP2.cpp:175-187) are not modelled. They only print.
- `writeSummaryStats` writes the per-slot counts and times to a file. The model returns those values from `Simulate` instead.
- The file reading in `readConfig` is not modelled. The file is given as its sequence of lines, and the error messages are reduced to the `ConfigError` cases.
- `ss >> value` is modelled for the C locale and decimal input only: leading white space, an optional sign, then the longest run of digits. A value outside the 32-bit range fails the read and the line is skipped.
- `count`, `totalTime`, `InstancesActive` and the scan's `nextInstanceIndex + i` (KuaP2.cpp:151) are unbounded integers in the model. In the source they are 32-bit `int`s: the counters could overflow only after more than 2^31 parties or seconds, and the scan sum overflows (undefined behaviour) only when n > 2^30.
- The unsynchronised reads of `keepRunning` by `checkInstance` are not modelled.

=== FILE: config.dfy ===
/**
 * The configuration reader of the simulator (readConfig in KuaP2.cpp).
 *
 * The file is given as its sequence of lines. Each line is split at its first
 * '=' into a key and an integer, as `getline(ss, key, '=') && ss >> value`
 * does; lines that do not parse are skipped. A negative value, a missing
 * required key or a minimum duration above the maximum ends the program
 * (exit(1)), modelled here as an `Err` result.
 */
module Config {
  import opened Wrappers

  datatype ConfigError =
    | NegativeValue(key: string)
    | MissingParameter(key: string)
    | MinAboveMax

  /** The keys the simulator reads, in the order they are checked. */
  const Required: seq<string> := ["n", "t", "h", "d", "t1", "t2"]

  /** Range of a C++ `int` (32 bits). */
  const IntMin: int := -0x8000_0000
  const IntMax: int := 0x7fff_ffff

  // ---------------------------------------------------------------------------
  // Integer extraction (`ss >> value` on an int)
  // ---------------------------------------------------------------------------

  /** White space as classified by the C locale, skipped before a number. */
  predicate IsSpace(c: char) {
    c == ' ' || c == '\t' || c == '\n' || c == '\U{B}' || c == '\U{C}' || c == '\r'
  }

  predicate IsDigit(c: char) {
    '0' as int <= c as int <= '9' as int
  }

  function DigitValue(c: char): (v: nat)
    requires IsDigit(c)
    ensures v < 10
  {
    c as int - '0' as int
  }

  function SkipSpaces(s: string): (r: string)
    ensures |r| <= |s| && r == s[|s| - |r|..]
    ensures r == [] || !IsSpace(r[0])
    ensures forall i :: 0 <= i < |s| - |r| ==> IsSpace(s[i])
  {
    if |s| > 0 && IsSpace(s[0]) then SkipSpaces(s[1..]) else s
  }

  /** Length of the longest prefix of `s` made of decimal digits. */
  function DigitRun(s: string): (n: nat)
    ensures n <= |s|
    ensures forall i :: 0 <= i < n ==> IsDigit(s[i])
    ensures n < |s| ==> !IsDigit(s[n])
  {
    if |s| > 0 && IsDigit(s[0]) then 1 + DigitRun(s[1..]) else 0
  }

  /** The number a string of decimal digits denotes, most significant first. */
  function DigitsValue(ds: string): nat
    requires forall i :: 0 <= i < |ds| ==> IsDigit(ds[i])
  {
    if |ds| == 0 then 0
    else DigitsValue(ds[..|ds| - 1]) * 10 + DigitValue(ds[|ds| - 1])
  }

  /** The longest run of digits at the start of `body`, as a number. */
  function ReadMagnitude(body: string): Option<nat> {
    var n := DigitRun(body);
    if n == 0 then None else Some(DigitsValue(body[..n]))
  }

  /**
   * `ss >> value`: skip leading white space, take an optional sign and the
   * longest run of digits (anything after it is left unread). It fails when
   * there is no digit or when the number does not fit in an `int`.
   */
  function ParseInt(s: string): Option<int> {
    var t := SkipSpaces(s);
    var negative := |t| > 0 && t[0] == '-';
    var body := if |t| > 0 && (t[0] == '-' || t[0] == '+') then t[1..] else t;
    match ReadMagnitude(body)
    case None => None
    case Some(magnitude) =>
      var v: int := if negative then 0 - magnitude else magnitude;
      if IntMin <= v <= IntMax then Some(v) else None
  }

  // ---------------------------------------------------------------------------
  // One line
  // ---------------------------------------------------------------------------

  /** Index of the first '=' in `s`, or |s| when there is none. */
  function FindEq(s: string): (i: nat)
    ensures i <= |s|
    ensures i < |s| ==> s[i] == '='
    ensures forall j :: 0 <= j < i ==> s[j] != '='
  {
    if |s| == 0 || s[0] == '=' then 0 else 1 + FindEq(s[1..])
  }

  /**
   * A line is a key up to its first '=' followed by an integer. A line without
   * '=' (the empty line included) or without a number after it is skipped.
   */
  function ParseLine(line: string): (r: Option<(string, int)>)
    ensures r.Some? ==>
      var key := r.value.0;
      |key| < |line| && line[..|key|] == key && line[|key|] == '=' &&
      (forall j :: 0 <= j < |key| ==> key[j] != '=') &&
      IntMin <= r.value.1 <= IntMax
  {
    var i := FindEq(line);
    if i == |line| then None
    else
      match ParseInt(line[i + 1..])
      case None => None
      case Some(v) => Some((line[..i], v))
  }

  // ---------------------------------------------------------------------------
  // The whole file
  // ---------------------------------------------------------------------------

  /** What each line of the file parses to, in order. */
  type Entries = seq<Option<(string, int)>>

  function Parsed(lines: seq<string>): Entries {
    seq(|lines|, i requires 0 <= i < |lines| => ParseLine(lines[i]))
  }

  /** Entry `i` is a parsed line carrying key `k`. */
  predicate Keyed(es: Entries, i: int, k: string) {
    0 <= i < |es| && es[i].Some? && es[i].value.0 == k
  }

  /** Entry `i` is a parsed line carrying a negative value. */
  predicate NegativeAt(es: Entries, i: int) {
    0 <= i < |es| && es[i].Some? && es[i].value.1 < 0
  }

  /**
   * The reading loop: parsed lines are stored in order, a later key replacing
   * an earlier one; the first negative value stops the reading.
   */
  function Collect(es: Entries): Result<map<string, int>, ConfigError> {
    if |es| == 0 then Ok(map[])
    else
      match Collect(es[..|es| - 1])
      case Err(e) => Err(e)
      case Ok(m) =>
        match es[|es| - 1]
        case None => Ok(m)
        case Some(entry) =>
          if entry.1 < 0 then Err(NegativeValue(entry.0)) else Ok(m[entry.0 := entry.1])
  }

  /** The first of `keys[j..]` that `m` lacks. */
  function FirstMissing(m: map<string, int>, keys: seq<string>, j: nat): (r: Option<string>)
    requires j <= |keys|
    ensures r.None? <==> forall i :: j <= i < |keys| ==> keys[i] in m
    ensures r.Some? ==>
      exists i :: j <= i < |keys| && keys[i] == r.value && r.value !in m &&
                  forall i' :: j <= i' < i ==> keys[i'] in m
    decreases |keys| - j
  {
    if j == |keys| then None
    else if keys[j] !in m then Some(keys[j])
    else FirstMissing(m, keys, j + 1)
  }

  /** The checks made after reading: required keys in order, then t1 <= t2. */
  function Validate(m: map<string, int>): Result<map<string, int>, ConfigError> {
    match FirstMissing(m, Required, 0)
    case Some(k) => Err(MissingParameter(k))
    case None => if m["t1"] > m["t2"] then Err(MinAboveMax) else Ok(m)
  }

  /** Reading followed by the checks, on the parsed lines. */
  function Configure(es: Entries): Result<map<string, int>, ConfigError> {
    match Collect(es)
    case Err(e) => Err(e)
    case Ok(m) => Validate(m)
  }

  /** What readConfig returns for a file with these lines. */
  function ConfigFrom(lines: seq<string>): Result<map<string, int>, ConfigError> {
    Configure(Parsed(lines))
  }

  /** A configuration the simulator accepts. */
  predicate ValidConfig(m: map<string, int>) {
    "n" in m && "t" in m && "h" in m && "d" in m && "t1" in m && "t2" in m &&
    (forall k :: k in m ==> m[k] >= 0) &&
    m["t1"] <= m["t2"]
  }

  // ---------------------------------------------------------------------------
  // readConfig
  // ---------------------------------------------------------------------------

  method ReadConfig(lines: seq<string>) returns (r: Result<map<string, int>, ConfigError>)
    ensures r == ConfigFrom(lines)
  {
    ghost var es := Parsed(lines);
    var config: map<string, int> := map[];
    var i := 0;
    while i < |lines|
      invariant 0 <= i <= |lines|
      invariant Collect(es[..i]) == Ok(config)
    {
      var parsed := ParseLine(lines[i]);
      CollectStep(es, i);
      if parsed.Some? {
        var entry := parsed.value;
        if entry.1 < 0 {
          CollectErrSticky(es, i + 1);
          assert es[..|es|] == es;
          return Err(NegativeValue(entry.0));
        }
        config := config[entry.0 := entry.1];
      }
      i := i + 1;
    }
    assert es[..|es|] == es;

    var j := 0;
    while j < |Required|
      invariant 0 <= j <= |Required|
      invariant FirstMissing(config, Required, 0) == FirstMissing(config, Required, j)
    {
      if Required[j] !in config {
        return Err(MissingParameter(Required[j]));
      }
      j := j + 1;
    }

    if config["t1"] > config["t2"] {
      return Err(MinAboveMax);
    }
    return Ok(config);
  }

  // ---------------------------------------------------------------------------
  // Properties
  // ---------------------------------------------------------------------------

  /** One more line read: the loop body of readConfig. */
  lemma CollectStep(es: Entries, i: nat)
    requires i < |es|
    ensures Collect(es[..i + 1]) ==
      match Collect(es[..i])
      case Err(e) => Err(e)
      case Ok(m) =>
        match es[i]
        case None => Ok(m)
        case Some(entry) =>
          if entry.1 < 0 then Err(NegativeValue(entry.0)) else Ok(m[entry.0 := entry.1])
  {
    assert es[..i + 1][..i] == es[..i];
  }

  /** Once reading has stopped on a negative value, later lines change nothing. */
  lemma {:induction false} CollectErrSticky(es: Entries, i: nat)
    requires i <= |es| && Collect(es[..i]).Err?
    ensures Collect(es) == Collect(es[..i])
    decreases |es| - i
  {
    if i == |es| {
      assert es[..i] == es;
    } else {
      assert es[..i + 1][..i] == es[..i];
      CollectErrSticky(es, i + 1);
    }
  }

  /**
   * Reading fails exactly when some line carries a negative value, and then it
   * names the key of the first such line.
   */
  lemma {:induction false} CollectFailsOnNegative(es: Entries)
    ensures Collect(es).Err? <==> exists i :: NegativeAt(es, i)
    ensures Collect(es).Err? ==>
      exists i :: NegativeAt(es, i) &&
        Collect(es).error == NegativeValue(es[i].value.0) &&
        forall j :: 0 <= j < i ==> !NegativeAt(es, j)
  {
    if |es| > 0 {
      var init := es[..|es| - 1];
      CollectFailsOnNegative(init);
      assert forall i :: 0 <= i < |init| ==> init[i] == es[i];
      if Collect(init).Err? {
        var i :| NegativeAt(init, i) &&
          Collect(init).error == NegativeValue(init[i].value.0) &&
          forall j :: 0 <= j < i ==> !NegativeAt(init, j);
        assert NegativeAt(es, i);
        assert Collect(es) == Collect(init);
        forall j | 0 <= j < i ensures !NegativeAt(es, j) {
          assert !NegativeAt(init, j);
        }
      } else if NegativeAt(es, |es| - 1) {
        forall j | 0 <= j < |es| - 1 ensures !NegativeAt(es, j) {
          assert !NegativeAt(init, j);
        }
        assert Collect(es).error == NegativeValue(es[|es| - 1].value.0);
      } else {
        forall i | NegativeAt(es, i) ensures false {
          assert NegativeAt(init, i);
        }
      }
    }
  }

  /**
   * After a successful read, the map holds exactly the keys of the parsed
   * lines, each with the value of the LAST line carrying it: a later
   * duplicate overwrites an earlier one.
   */
  lemma {:induction false} CollectKeepsLastValue(es: Entries, m: map<string, int>)
    requires Collect(es) == Ok(m)
    ensures forall k :: k in m <==> exists i :: Keyed(es, i, k)
    ensures forall i, k :: Keyed(es, i, k) && (forall j :: i < j < |es| ==> !Keyed(es, j, k))
                           ==> m[k] == es[i].value.1
    ensures forall k :: k in m ==> m[k] >= 0
  {
    if |es| > 0 {
      var init := es[..|es| - 1];
      var last := |es| - 1;
      var m0 := Collect(init).value;
      CollectKeepsLastValue(init, m0);
      assert forall i :: 0 <= i < |init| ==> init[i] == es[i];
      forall k ensures k in m <==> exists i :: Keyed(es, i, k) {
        if k in m {
          if k in m0 {
            var i :| Keyed(init, i, k);
            assert Keyed(es, i, k);
          } else {
            assert Keyed(es, last, k);
          }
        }
        if exists i :: Keyed(es, i, k) {
          var i :| Keyed(es, i, k);
          if i < last {
            assert Keyed(init, i, k);
          }
        }
      }
      forall i, k | Keyed(es, i, k) && (forall j :: i < j < |es| ==> !Keyed(es, j, k))
        ensures m[k] == es[i].value.1
      {
        if i < last {
          assert Keyed(init, i, k);
          assert !Keyed(es, last, k);
          assert forall j :: i < j < |init| ==> !Keyed(init, j, k) by {
            forall j | i < j < |init| ensures !Keyed(init, j, k) {
              assert !Keyed(es, j, k);
            }
          }
        }
      }
    }
  }

  /** readConfig fails on the first negative value, whatever follows. */
  lemma {:induction false} ConfigRejectsNegative(es: Entries, i: int)
    requires NegativeAt(es, i)
    ensures Configure(es).Err? && Configure(es).error.NegativeValue?
  {
    CollectFailsOnNegative(es);
  }

  /**
   * With no negative value, readConfig reports a required key that no line
   * provides (the first of n, t, h, d, t1, t2 in that order), and otherwise
   * succeeds exactly when t1 <= t2.
   */
  lemma {:induction false} ConfigRejectsMissingOrInverted(es: Entries)
    requires forall i :: !NegativeAt(es, i)
    ensures Collect(es).Ok?
    ensures (exists r :: r in Required && forall i :: !Keyed(es, i, r)) ==>
              Configure(es).Err? && Configure(es).error.MissingParameter?
    ensures (forall r :: r in Required ==> exists i :: Keyed(es, i, r)) ==>
              (Configure(es).Ok? <==>
                 var m := Collect(es).value; "t1" in m && "t2" in m && m["t1"] <= m["t2"])
  {
    CollectFailsOnNegative(es);
    var m := Collect(es).value;
    CollectKeepsLastValue(es, m);
    if exists r :: r in Required && forall i :: !Keyed(es, i, r) {
      var r :| r in Required && forall i :: !Keyed(es, i, r);
      assert r !in m;
    }
    if forall r :: r in Required ==> exists i :: Keyed(es, i, r) {
      assert forall r :: r in Required ==> r in m;
      assert FirstMissing(m, Required, 0).None?;
    }
  }

  /** A successful read yields a configuration the simulator accepts. */
  lemma {:induction false} ConfigOkIsValid(es: Entries)
    requires Configure(es).Ok?
    ensures ValidConfig(Configure(es).value)
  {
    var m := Collect(es).value;
    CollectKeepsLastValue(es, m);
    assert Required[0] == "n" && Required[1] == "t" && Required[2] == "h";
    assert Required[3] == "d" && Required[4] == "t1" && Required[5] == "t2";
  }

  // ---------------------------------------------------------------------------
  // Round trip: a line written as `key=value` reads back as (key, value)
  // ---------------------------------------------------------------------------

  function NatDigits(n: nat): (s: string)
    ensures |s| > 0 && forall i :: 0 <= i < |s| ==> IsDigit(s[i])
  {
    if n < 10 then [('0' as int + n) as char]
    else NatDigits(n / 10) + [('0' as int + n % 10) as char]
  }

  /** Decimal rendering of an integer, with '-' for negatives. */
  function Show(v: int): string {
    if v < 0 then "-" + NatDigits(-v) else NatDigits(v)
  }

  lemma {:induction false} NatDigitsValue(n: nat)
    ensures DigitsValue(NatDigits(n)) == n
  {
    var s := NatDigits(n);
    if n >= 10 {
      NatDigitsValue(n / 10);
      assert s[..|s| - 1] == NatDigits(n / 10);
    }
  }

  lemma {:induction false} DigitRunAll(s: string, rest: string)
    requires forall i :: 0 <= i < |s| ==> IsDigit(s[i])
    requires rest == [] || !IsDigit(rest[0])
    ensures DigitRun(s + rest) == |s|
  {
    if |s| > 0 {
      assert (s + rest)[1..] == s[1..] + rest;
      DigitRunAll(s[1..], rest);
    } else {
      assert s + rest == rest;
    }
  }

  lemma {:induction false} FindEqAfterKey(key: string, rest: string)
    requires forall j :: 0 <= j < |key| ==> key[j] != '='
    ensures FindEq(key + "=" + rest) == |key|
  {
    if |key| > 0 {
      assert (key + "=" + rest)[1..] == key[1..] + "=" + rest;
      FindEqAfterKey(key[1..], rest);
    }
  }

  lemma {:induction false} ReadMagnitudeDigits(n: nat)
    ensures ReadMagnitude(NatDigits(n)) == Some(n)
  {
    var digits := NatDigits(n);
    DigitRunAll(digits, []);
    assert digits + [] == digits;
    assert digits[..|digits|] == digits;
    NatDigitsValue(n);
  }

  /** The decimal rendering of any int reads back as that int. */
  lemma {:induction false} ParseIntShow(v: int)
    requires IntMin <= v <= IntMax
    ensures ParseInt(Show(v)) == Some(v)
  {
    var t := Show(v);
    assert SkipSpaces(t) == t;
    if v < 0 {
      assert t[1..] == NatDigits(-v);
      ReadMagnitudeDigits(-v);
    } else {
      ReadMagnitudeDigits(v);
    }
  }

  /** Any int written as `key=value`, with no '=' in the key, reads back. */
  lemma {:induction false} ParseLineRoundTrip(key: string, v: int)
    requires forall j :: 0 <= j < |key| ==> key[j] != '='
    requires IntMin <= v <= IntMax
    ensures ParseLine(key + "=" + Show(v)) == Some((key, v))
  {
    var line := key + "=" + Show(v);
    FindEqAfterKey(key, Show(v));
    assert line[|key| + 1..] == Show(v);
    assert line[..|key|] == key;
    ParseIntShow(v);
  }
}

=== FILE: dungeon.dfy ===
/**
 * The shared state of the dungeon simulator (KuaP2.cpp) and its three locked
 * sections, each an atomic transition: one pass of createParty's admission
 * loop, the first critical section of runInstance (a worker starts) and the
 * second one (a worker finishes). Threads, the mutex and the condition
 * variable are not modelled: a transition is enabled when the locked code
 * would run, and interleavings are sequences of transitions.
 */
module Dungeon {
  import opened Wrappers

  /** Per-instance summary record: parties served, seconds served, busy flag. */
  datatype InstanceStats = InstanceStats(count: int, totalTime: int, isActive: bool)

  const EmptyStats: InstanceStats := InstanceStats(0, 0, false)

  /** How far one spawned runInstance thread has got. */
  datatype Phase = Spawned | Running | Done

  /** One entry of dThreads: the thread running runInstance(slot, duration). */
  datatype Worker = Worker(slot: int, duration: int, phase: Phase)

  /**
   * Everything the locked sections read and write: the role counters owned
   * by createParty, instanceStats (its length is InstancesMax),
   * InstancesActive, the static cursor nextInstanceIndex, keepRunning and the
   * spawned threads.
   */
  datatype State = State(
    tanks: int,
    healers: int,
    dps: int,
    stats: seq<InstanceStats>,
    instancesActive: int,
    nextInstanceIndex: int,
    keepRunning: bool,
    threads: seq<Worker>)

  /** A party needs one tank, one healer and three dps. */
  predicate CanFormParty(tanks: int, healers: int, dps: int) {
    tanks >= 1 && healers >= 1 && dps >= 3
  }

  /** The predicate createParty waits on before each pass. */
  predicate MayAdmit(s: State) {
    s.instancesActive < |s.stats| || !CanFormParty(s.tanks, s.healers, s.dps)
  }

  /** The number of parties that resources (t, h, d) can form. */
  function Formations(t: int, h: int, d: int): (r: int)
    ensures r <= t && r <= h && r <= d / 3
    ensures r == t || r == h || r == d / 3
  {
    var byDps := d / 3;
    if t <= h && t <= byDps then t else if h <= byDps then h else byDps
  }

  // ---------------------------------------------------------------------------
  // The round-robin scan
  // ---------------------------------------------------------------------------

  /**
   * The slot the scan visits at step i from cursor `cursor` among n slots.
   * The cursor is never negative, so C++'s truncating % agrees with Dafny's;
   * the sum is taken as an unbounded integer (in the source it is a 32-bit
   * int, which overflows only when n > 2^30).
   */
  function Offset(cursor: int, i: int, n: int): (slot: int)
    requires cursor >= 0 && i >= 0 && n > 0
    ensures 0 <= slot < n
  {
    (cursor + i) % n
  }

  /** The first step at or after i whose slot is not active, if any. */
  function FreeOffset(stats: seq<InstanceStats>, cursor: int, i: nat): (r: Option<nat>)
    requires cursor >= 0
    ensures r.Some? ==> i <= r.value < |stats| && !stats[Offset(cursor, r.value, |stats|)].isActive
    ensures r.Some? ==> forall j :: i <= j < r.value ==> stats[Offset(cursor, j, |stats|)].isActive
    ensures r.None? ==> forall j :: i <= j < |stats| ==> stats[Offset(cursor, j, |stats|)].isActive
    decreases |stats| - i
  {
    if i >= |stats| then None
    else if !stats[Offset(cursor, i, |stats|)].isActive then Some(i)
    else FreeOffset(stats, cursor, i + 1)
  }

  /** The slot the inner for-loop of createParty picks, if any. */
  function FirstFree(stats: seq<InstanceStats>, cursor: int): Option<int>
    requires cursor >= 0
  {
    match FreeOffset(stats, cursor, 0)
    case None => None
    case Some(j) => Some(Offset(cursor, j, |stats|))
  }

  // ---------------------------------------------------------------------------
  // The three locked sections
  // ---------------------------------------------------------------------------

  /**
   * One pass of createParty's loop once its wait is over: form a party and
   * hand it to the first free slot from the cursor, or, when no party can be
   * formed, clear keepRunning (the loop then ends).
   */
  function Admit(s: State, duration: int): State
    requires s.keepRunning && MayAdmit(s) && s.nextInstanceIndex >= 0
  {
    if CanFormParty(s.tanks, s.healers, s.dps) then
      var formed := s.(tanks := s.tanks - 1, healers := s.healers - 1, dps := s.dps - 3);
      match FirstFree(s.stats, s.nextInstanceIndex)
      case None => formed
      case Some(index) =>
        formed.(instancesActive := s.instancesActive + 1,
                threads := s.threads + [Worker(index, duration, Spawned)],
                nextInstanceIndex := (index + 1) % |s.stats|)
    else
      s.(keepRunning := false)
  }

  /** First critical section of runInstance: the thread's slot becomes active. */
  function Start(s: State, k: int): State
    requires 0 <= k < |s.threads| && s.threads[k].phase == Spawned
    requires 0 <= s.threads[k].slot < |s.stats|
  {
    var w := s.threads[k];
    var st := s.stats[w.slot];
    s.(stats := s.stats[w.slot := InstanceStats(st.count + 1, st.totalTime + w.duration, true)],
       threads := s.threads[k := w.(phase := Running)])
  }

  /** Second critical section of runInstance: the slot is emptied. */
  function Finish(s: State, k: int): State
    requires 0 <= k < |s.threads| && s.threads[k].phase == Running
    requires 0 <= s.threads[k].slot < |s.stats|
  {
    var w := s.threads[k];
    s.(stats := s.stats[w.slot := s.stats[w.slot].(isActive := false)],
       instancesActive := s.instancesActive - 1,
       threads := s.threads[k := w.(phase := Done)])
  }

  /** The state main() sets up before calling createParty. */
  function Initial(n: nat, t: int, h: int, d: int): State {
    State(t, h, d, seq(n, _ => EmptyStats), 0, 0, true, [])
  }

  // ---------------------------------------------------------------------------
  // Counting
  // ---------------------------------------------------------------------------

  /** Threads dispatched and not yet through their second critical section. */
  ghost function Unfinished(ws: seq<Worker>): set<int> {
    set k | 0 <= k < |ws| && ws[k].phase != Done
  }

  /** Threads between their two critical sections. */
  ghost function RunningThreads(ws: seq<Worker>): set<int> {
    set k | 0 <= k < |ws| && ws[k].phase == Running
  }

  /** Slots whose isActive flag is set. */
  ghost function ActiveSlots(stats: seq<InstanceStats>): set<int> {
    set i | 0 <= i < |stats| && stats[i].isActive
  }

  function Sum(xs: seq<int>): int {
    if |xs| == 0 then 0 else Sum(xs[..|xs| - 1]) + xs[|xs| - 1]
  }

  function Counts(stats: seq<InstanceStats>): seq<int> {
    seq(|stats|, i requires 0 <= i < |stats| => stats[i].count)
  }

  function Times(stats: seq<InstanceStats>): seq<int> {
    seq(|stats|, i requires 0 <= i < |stats| => stats[i].totalTime)
  }

  /** 1 for every thread that has run its first critical section. */
  function StartedFlags(ws: seq<Worker>): seq<int> {
    seq(|ws|, k requires 0 <= k < |ws| => if ws[k].phase != Spawned then 1 else 0)
  }

  /** The duration of every thread that has run its first critical section. */
  function StartedTimes(ws: seq<Worker>): seq<int> {
    seq(|ws|, k requires 0 <= k < |ws| => if ws[k].phase != Spawned then ws[k].duration else 0)
  }

  function Durations(ws: seq<Worker>): seq<int> {
    seq(|ws|, k requires 0 <= k < |ws| => ws[k].duration)
  }

  /** 1 for every thread that has started in slot i. */
  function ServedFlags(ws: seq<Worker>, i: int): seq<int> {
    seq(|ws|, k requires 0 <= k < |ws| => if ws[k].phase != Spawned && ws[k].slot == i then 1 else 0)
  }

  /** The duration of every thread that has started in slot i. */
  function ServedTimes(ws: seq<Worker>, i: int): seq<int> {
    seq(|ws|, k requires 0 <= k < |ws| => if ws[k].phase != Spawned && ws[k].slot == i then ws[k].duration else 0)
  }

  // ---------------------------------------------------------------------------
  // The invariant
  // ---------------------------------------------------------------------------

  /** Each slot's count and time are those of the threads that started in it. */
  ghost predicate SlotsServed(stats: seq<InstanceStats>, ws: seq<Worker>) {
    forall i {:trigger ServedFlags(ws, i)} :: 0 <= i < |stats| ==>
      stats[i].count == Sum(ServedFlags(ws, i)) &&
      stats[i].totalTime == Sum(ServedTimes(ws, i))
  }

  /**
   * What holds between locked sections of a run that started with t0 tanks,
   * h0 healers and d0 dps. An active slot always has a running thread, so the
   * number of active slots is at most InstancesActive; it can be smaller,
   * since a dispatched thread sets its flag only when it starts. Each slot
   * has served exactly the threads that have started in it, and the totals
   * over all slots are those of all started threads.
   */
  ghost predicate Inv(s: State, t0: int, h0: int, d0: int) {
    var n := |s.stats|;
    var w := |s.threads|;
    s.tanks >= 0 && s.healers >= 0 && s.dps >= 0 &&
    s.tanks == t0 - w && s.healers == h0 - w && s.dps == d0 - 3 * w &&
    (if n == 0 then s.nextInstanceIndex == 0 else 0 <= s.nextInstanceIndex < n) &&
    (forall k :: 0 <= k < w ==> 0 <= s.threads[k].slot < n) &&
    s.instancesActive == |Unfinished(s.threads)| && s.instancesActive <= n &&
    (forall i :: 0 <= i < n && s.stats[i].isActive ==>
       exists k :: 0 <= k < w && s.threads[k].phase == Running && s.threads[k].slot == i) &&
    SlotsServed(s.stats, s.threads) &&
    Sum(Counts(s.stats)) == Sum(StartedFlags(s.threads)) &&
    Sum(Times(s.stats)) == Sum(StartedTimes(s.threads)) &&
    (!s.keepRunning ==> !CanFormParty(s.tanks, s.healers, s.dps))
  }

  // ---------------------------------------------------------------------------
  // Arithmetic of the scan
  // ---------------------------------------------------------------------------

  lemma MulSign(x: int, n: int)
    requires n > 0
    ensures x >= 1 ==> x * n >= n
    ensures x <= -1 ==> x * n <= -n
  {
  }

  /** The remainder is determined by any quotient/remainder decomposition. */
  lemma ModOfDecomposition(a: int, n: int, q: int, r: int)
    requires n > 0 && a == q * n + r && 0 <= r < n
    ensures a % n == r
  {
    var q', r' := a / n, a % n;
    assert a == q' * n + r';
    var x := q - q';
    assert x * n == q * n - q' * n;
    MulSign(x, n);
  }

  /** Some step of the scan from `cursor` lands on `slot`. */
  ghost predicate Visited(cursor: int, n: int, slot: int)
    requires cursor >= 0 && n > 0
  {
    exists j :: 0 <= j < n && Offset(cursor, j, n) == slot
  }

  /**
   * The scan of createParty visits every slot exactly once: the n steps from
   * any cursor land on pairwise different slots, and every slot is reached.
   */
  lemma ScanVisitsEachSlotOnce(cursor: int, n: int)
    requires cursor >= 0 && n > 0
    ensures forall i, j :: 0 <= i < j < n ==> Offset(cursor, i, n) != Offset(cursor, j, n)
    ensures forall slot :: 0 <= slot < n ==> Visited(cursor, n, slot)
  {
    forall i, j | 0 <= i < j < n ensures Offset(cursor, i, n) != Offset(cursor, j, n) {
      var qi, qj := (cursor + i) / n, (cursor + j) / n;
      assert cursor + i == qi * n + Offset(cursor, i, n);
      assert cursor + j == qj * n + Offset(cursor, j, n);
      var x := qj - qi;
      assert x * n == qj * n - qi * n;
      MulSign(x, n);
    }
    forall slot | 0 <= slot < n ensures Visited(cursor, n, slot) {
      var j := (slot - cursor) % n;
      var q := (slot - cursor) / n;
      assert slot - cursor == q * n + j;
      ModOfDecomposition(cursor + j, n, -q, slot);
      assert Offset(cursor, j, n) == slot;
    }
  }

  /**
   * What the scan picks: a slot in range that is not active, every slot
   * visited before it being active; when it picks nothing, every slot is
   * active.
   */
  lemma FirstFreeSpec(stats: seq<InstanceStats>, cursor: int)
    requires cursor >= 0
    ensures FirstFree(stats, cursor).Some? ==>
      var slot := FirstFree(stats, cursor).value;
      0 <= slot < |stats| && !stats[slot].isActive &&
      exists j :: 0 <= j < |stats| && Offset(cursor, j, |stats|) == slot &&
        forall j' :: 0 <= j' < j ==> stats[Offset(cursor, j', |stats|)].isActive
    ensures FirstFree(stats, cursor).None? ==> forall i :: 0 <= i < |stats| ==> stats[i].isActive
  {
    var r := FreeOffset(stats, cursor, 0);
    if r.None? && |stats| > 0 {
      ScanVisitsEachSlotOnce(cursor, |stats|);
      forall i | 0 <= i < |stats| ensures stats[i].isActive {
        assert Visited(cursor, |stats|, i);
        var j :| 0 <= j < |stats| && Offset(cursor, j, |stats|) == i;
      }
    }
  }

  /** With every slot free, the scan takes the cursor's slot: slots are used in turn. */
  lemma RoundRobinWhenAllFree(stats: seq<InstanceStats>, cursor: int)
    requires 0 <= cursor < |stats|
    requires forall i :: 0 <= i < |stats| ==> !stats[i].isActive
    ensures FirstFree(stats, cursor) == Some(cursor)
    ensures (FirstFree(stats, cursor).value + 1) % |stats| == if cursor == |stats| - 1 then 0 else cursor + 1
  {
    ModOfDecomposition(cursor, |stats|, 0, cursor);
    if cursor == |stats| - 1 {
      ModOfDecomposition(cursor + 1, |stats|, 1, 0);
    } else {
      ModOfDecomposition(cursor + 1, |stats|, 0, cursor + 1);
    }
  }

  // ---------------------------------------------------------------------------
  // Sums and cardinalities
  // ---------------------------------------------------------------------------

  lemma SumAppend(xs: seq<int>, v: int)
    ensures Sum(xs + [v]) == Sum(xs) + v
  {
  }

  lemma {:induction false} SumUpdate(xs: seq<int>, i: int, v: int)
    requires 0 <= i < |xs|
    ensures Sum(xs[i := v]) == Sum(xs) - xs[i] + v
  {
    var ys := xs[i := v];
    if i == |xs| - 1 {
      assert ys[..|ys| - 1] == xs[..|xs| - 1];
    } else {
      SumUpdate(xs[..|xs| - 1], i, v);
      assert ys[..|ys| - 1] == xs[..|xs| - 1][i := v];
    }
  }

  lemma {:induction false} SumConstant(xs: seq<int>, c: int)
    requires forall i :: 0 <= i < |xs| ==> xs[i] == c
    ensures Sum(xs) == c * |xs|
  {
    if |xs| > 0 {
      SumConstant(xs[..|xs| - 1], c);
    }
  }

  lemma {:induction false} AllActiveCard(stats: seq<InstanceStats>)
    requires forall i :: 0 <= i < |stats| ==> stats[i].isActive
    ensures |ActiveSlots(stats)| == |stats|
  {
    if |stats| > 0 {
      var init := stats[..|stats| - 1];
      AllActiveCard(init);
      assert ActiveSlots(stats) == ActiveSlots(init) + {|stats| - 1};
    }
  }

  lemma SubsetCard<T>(A: set<T>, B: set<T>)
    requires A <= B
    ensures |A| <= |B|
  {
    assert B == A + (B - A);
    assert A * (B - A) == {};
  }

  /** Some thread in B runs in slot i. */
  ghost predicate HasRunner(B: set<int>, ws: seq<Worker>, i: int)
    requires forall k :: k in B ==> 0 <= k < |ws|
  {
    exists k :: k in B && ws[k].slot == i
  }

  /** Active slots among the first m. */
  ghost function ActiveBelow(stats: seq<InstanceStats>, m: int): set<int> {
    set i | 0 <= i < m && i < |stats| && stats[i].isActive
  }

  /**
   * Distinct active slots have distinct running threads (a thread runs in one
   * slot), so there are no more active slots than running threads.
   */
  lemma {:induction false} ActiveAtMostRunning(stats: seq<InstanceStats>, m: nat, B: set<int>, ws: seq<Worker>)
    requires m <= |stats|
    requires forall k :: k in B ==> 0 <= k < |ws|
    requires forall i :: 0 <= i < m && stats[i].isActive ==> HasRunner(B, ws, i)
    ensures |ActiveBelow(stats, m)| <= |B|
  {
    if m > 0 {
      var last := m - 1;
      if stats[last].isActive {
        assert HasRunner(B, ws, last);
        var k :| k in B && ws[k].slot == last;
        forall i | 0 <= i < last && stats[i].isActive ensures HasRunner(B - {k}, ws, i) {
          assert HasRunner(B, ws, i);
          var k' :| k' in B && ws[k'].slot == i;
          assert k' != k;
        }
        ActiveAtMostRunning(stats, last, B - {k}, ws);
        assert ActiveBelow(stats, m) == ActiveBelow(stats, last) + {last};
      } else {
        ActiveAtMostRunning(stats, last, B, ws);
        assert ActiveBelow(stats, m) == ActiveBelow(stats, last);
      }
    }
  }

  // ---------------------------------------------------------------------------
  // Properties of the invariant
  // ---------------------------------------------------------------------------

  /** `#{i | isActive[i]} <= InstancesActive <= InstancesMax`, and it is never negative. */
  lemma ActiveBound(s: State, t0: int, h0: int, d0: int)
    requires Inv(s, t0, h0, d0)
    ensures |ActiveSlots(s.stats)| <= s.instancesActive <= |s.stats|
    ensures 0 <= s.instancesActive
  {
    var R := RunningThreads(s.threads);
    forall i | 0 <= i < |s.stats| && s.stats[i].isActive ensures HasRunner(R, s.threads, i) {
      var k :| 0 <= k < |s.threads| && s.threads[k].phase == Running && s.threads[k].slot == i;
      assert k in R;
    }
    ActiveAtMostRunning(s.stats, |s.stats|, R, s.threads);
    assert ActiveSlots(s.stats) == ActiveBelow(s.stats, |s.stats|);
    SubsetCard(R, Unfinished(s.threads));
  }

  /** Under the invariant, a slot is free whenever a party is formed. */
  lemma AdmitFindsSlot(s: State, t0: int, h0: int, d0: int)
    requires Inv(s, t0, h0, d0) && MayAdmit(s) && CanFormParty(s.tanks, s.healers, s.dps)
    ensures FirstFree(s.stats, s.nextInstanceIndex).Some?
  {
    ActiveBound(s, t0, h0, d0);
    FirstFreeSpec(s.stats, s.nextInstanceIndex);
    if forall i :: 0 <= i < |s.stats| ==> s.stats[i].isActive {
      AllActiveCard(s.stats);
    }
  }

  lemma InitialInv(n: nat, t: int, h: int, d: int)
    requires t >= 0 && h >= 0 && d >= 0
    ensures Inv(Initial(n, t, h, d), t, h, d)
  {
    var s := Initial(n, t, h, d);
    assert Unfinished(s.threads) == {};
    SumConstant(Counts(s.stats), 0);
    SumConstant(Times(s.stats), 0);
  }

  /**
   * An admission pass is all-or-nothing: it takes exactly 1 tank, 1 healer and
   * 3 dps and dispatches one thread to the slot the scan picks, advancing the
   * cursor past it; or, when no party can be formed, it changes nothing but
   * keepRunning.
   */
  lemma AdmitFormsWholeParty(s: State, duration: int, t0: int, h0: int, d0: int)
    requires Inv(s, t0, h0, d0) && s.keepRunning && MayAdmit(s)
    ensures var r := Admit(s, duration);
      if CanFormParty(s.tanks, s.healers, s.dps) then
        FirstFree(s.stats, s.nextInstanceIndex).Some? &&
        var slot := FirstFree(s.stats, s.nextInstanceIndex).value;
        r.tanks == s.tanks - 1 && r.healers == s.healers - 1 && r.dps == s.dps - 3 &&
        r.threads == s.threads + [Worker(slot, duration, Spawned)] &&
        r.instancesActive == s.instancesActive + 1 &&
        r.nextInstanceIndex == (slot + 1) % |s.stats| &&
        r.stats == s.stats && r.keepRunning
      else
        r == s.(keepRunning := false)
  {
    if CanFormParty(s.tanks, s.healers, s.dps) {
      AdmitFindsSlot(s, t0, h0, d0);
    }
  }

  /** A dispatched thread that has not started changes no slot's record. */
  lemma DispatchKeepsSlotsServed(stats: seq<InstanceStats>, ws: seq<Worker>, w: Worker)
    requires SlotsServed(stats, ws) && w.phase == Spawned
    ensures SlotsServed(stats, ws + [w])
  {
    forall i | 0 <= i < |stats|
      ensures stats[i].count == Sum(ServedFlags(ws + [w], i))
      ensures stats[i].totalTime == Sum(ServedTimes(ws + [w], i))
    {
      assert ServedFlags(ws + [w], i) == ServedFlags(ws, i) + [0];
      assert ServedTimes(ws + [w], i) == ServedTimes(ws, i) + [0];
      SumAppend(ServedFlags(ws, i), 0);
      SumAppend(ServedTimes(ws, i), 0);
    }
  }

  /** Starting thread k adds one party and its duration to its own slot only. */
  lemma StartKeepsSlotsServed(stats: seq<InstanceStats>, ws: seq<Worker>, k: int)
    requires SlotsServed(stats, ws)
    requires 0 <= k < |ws| && ws[k].phase == Spawned && 0 <= ws[k].slot < |stats|
    ensures var id, w := ws[k].slot, ws[k];
      SlotsServed(stats[id := InstanceStats(stats[id].count + 1, stats[id].totalTime + w.duration, true)],
                  ws[k := w.(phase := Running)])
  {
    var id, w := ws[k].slot, ws[k];
    var stats' := stats[id := InstanceStats(stats[id].count + 1, stats[id].totalTime + w.duration, true)];
    var ws' := ws[k := w.(phase := Running)];
    forall i | 0 <= i < |stats'|
      ensures stats'[i].count == Sum(ServedFlags(ws', i))
      ensures stats'[i].totalTime == Sum(ServedTimes(ws', i))
    {
      if i == id {
        assert ServedFlags(ws', i) == ServedFlags(ws, i)[k := 1];
        assert ServedTimes(ws', i) == ServedTimes(ws, i)[k := w.duration];
        SumUpdate(ServedFlags(ws, i), k, 1);
        SumUpdate(ServedTimes(ws, i), k, w.duration);
      } else {
        assert ServedFlags(ws', i) == ServedFlags(ws, i);
        assert ServedTimes(ws', i) == ServedTimes(ws, i);
      }
    }
  }

  /** Finishing a thread leaves every slot's count and time as they were. */
  lemma FinishKeepsSlotsServed(stats: seq<InstanceStats>, ws: seq<Worker>, k: int)
    requires SlotsServed(stats, ws)
    requires 0 <= k < |ws| && ws[k].phase == Running && 0 <= ws[k].slot < |stats|
    ensures var id := ws[k].slot;
      SlotsServed(stats[id := stats[id].(isActive := false)], ws[k := ws[k].(phase := Done)])
  {
    var id := ws[k].slot;
    var stats', ws' := stats[id := stats[id].(isActive := false)], ws[k := ws[k].(phase := Done)];
    forall i | 0 <= i < |stats'|
      ensures stats'[i].count == Sum(ServedFlags(ws', i))
      ensures stats'[i].totalTime == Sum(ServedTimes(ws', i))
    {
      assert ServedFlags(ws', i) == ServedFlags(ws, i);
      assert ServedTimes(ws', i) == ServedTimes(ws, i);
    }
  }

  lemma AdmitPreservesInv(s: State, duration: int, t0: int, h0: int, d0: int)
    requires Inv(s, t0, h0, d0) && s.keepRunning && MayAdmit(s)
    ensures Inv(Admit(s, duration), t0, h0, d0)
  {
    if CanFormParty(s.tanks, s.healers, s.dps) {
      AdmitFindsSlot(s, t0, h0, d0);
      FirstFreeSpec(s.stats, s.nextInstanceIndex);
      ActiveBound(s, t0, h0, d0);
      var slot := FirstFree(s.stats, s.nextInstanceIndex).value;
      var w := Worker(slot, duration, Spawned);
      var r := Admit(s, duration);
      var ws, ws' := s.threads, r.threads;
      assert ws' == ws + [w];
      assert Unfinished(ws') == Unfinished(ws) + {|ws|};
      forall i | 0 <= i < |r.stats| && r.stats[i].isActive
        ensures exists k :: 0 <= k < |ws'| && ws'[k].phase == Running && ws'[k].slot == i
      {
        var k :| 0 <= k < |ws| && ws[k].phase == Running && ws[k].slot == i;
        assert ws'[k] == ws[k];
      }
      assert StartedFlags(ws') == StartedFlags(ws) + [0];
      assert StartedTimes(ws') == StartedTimes(ws) + [0];
      SumAppend(StartedFlags(ws), 0);
      SumAppend(StartedTimes(ws), 0);
      DispatchKeepsSlotsServed(s.stats, ws, w);
    }
  }

  lemma StartPreservesInv(s: State, k: int, t0: int, h0: int, d0: int)
    requires Inv(s, t0, h0, d0)
    requires 0 <= k < |s.threads| && s.threads[k].phase == Spawned
    ensures 0 <= s.threads[k].slot < |s.stats|
    ensures Inv(Start(s, k), t0, h0, d0)
  {
    var r := Start(s, k);
    var w := s.threads[k];
    var id := w.slot;
    var ws, ws' := s.threads, r.threads;
    assert Unfinished(ws') == Unfinished(ws);
    forall i | 0 <= i < |r.stats| && r.stats[i].isActive
      ensures exists k' :: 0 <= k' < |ws'| && ws'[k'].phase == Running && ws'[k'].slot == i
    {
      if i == id {
        assert ws'[k].phase == Running && ws'[k].slot == i;
      } else {
        var k' :| 0 <= k' < |ws| && ws[k'].phase == Running && ws[k'].slot == i;
        assert ws'[k'] == ws[k'];
      }
    }
    var st := s.stats[id];
    assert Counts(r.stats) == Counts(s.stats)[id := st.count + 1];
    assert Times(r.stats) == Times(s.stats)[id := st.totalTime + w.duration];
    assert StartedFlags(ws') == StartedFlags(ws)[k := 1];
    assert StartedTimes(ws') == StartedTimes(ws)[k := w.duration];
    SumUpdate(Counts(s.stats), id, st.count + 1);
    SumUpdate(Times(s.stats), id, st.totalTime + w.duration);
    SumUpdate(StartedFlags(ws), k, 1);
    SumUpdate(StartedTimes(ws), k, w.duration);
    StartKeepsSlotsServed(s.stats, ws, k);
  }

  lemma FinishPreservesInv(s: State, k: int, t0: int, h0: int, d0: int)
    requires Inv(s, t0, h0, d0)
    requires 0 <= k < |s.threads| && s.threads[k].phase == Running
    ensures 0 <= s.threads[k].slot < |s.stats|
    ensures Inv(Finish(s, k), t0, h0, d0)
  {
    var r := Finish(s, k);
    var id := s.threads[k].slot;
    var ws, ws' := s.threads, r.threads;
    assert k in Unfinished(ws);
    assert Unfinished(ws') == Unfinished(ws) - {k};
    forall i | 0 <= i < |r.stats| && r.stats[i].isActive
      ensures exists k' :: 0 <= k' < |ws'| && ws'[k'].phase == Running && ws'[k'].slot == i
    {
      assert i != id && r.stats[i] == s.stats[i];
      var k' :| 0 <= k' < |ws| && ws[k'].phase == Running && ws[k'].slot == i;
      assert ws'[k'] == ws[k'];
    }
    assert Counts(r.stats) == Counts(s.stats);
    assert Times(r.stats) == Times(s.stats);
    assert StartedFlags(ws') == StartedFlags(ws);
    assert StartedTimes(ws') == StartedTimes(ws);
    FinishKeepsSlotsServed(s.stats, ws, k);
  }

  /**
   * A worker's steps touch its own slot only: start adds one party and its
   * duration to that slot and sets its flag; finish clears the flag and
   * takes one from InstancesActive. Every other slot, the role counters, the
   * cursor and keepRunning stay as they were.
   */
  lemma WorkerStepsAreLocal(s: State, k: int)
    requires 0 <= k < |s.threads| && 0 <= s.threads[k].slot < |s.stats|
    ensures s.threads[k].phase == Spawned ==>
      var r, id := Start(s, k), s.threads[k].slot;
      r.stats[id] == InstanceStats(s.stats[id].count + 1, s.stats[id].totalTime + s.threads[k].duration, true) &&
      (forall i :: 0 <= i < |s.stats| && i != id ==> r.stats[i] == s.stats[i]) &&
      |r.stats| == |s.stats| && r.instancesActive == s.instancesActive &&
      r.tanks == s.tanks && r.healers == s.healers && r.dps == s.dps &&
      r.nextInstanceIndex == s.nextInstanceIndex && r.keepRunning == s.keepRunning
    ensures s.threads[k].phase == Running ==>
      var r, id := Finish(s, k), s.threads[k].slot;
      r.stats[id] == s.stats[id].(isActive := false) &&
      (forall i :: 0 <= i < |s.stats| && i != id ==> r.stats[i] == s.stats[i]) &&
      |r.stats| == |s.stats| && r.instancesActive == s.instancesActive - 1 &&
      r.tanks == s.tanks && r.healers == s.healers && r.dps == s.dps &&
      r.nextInstanceIndex == s.nextInstanceIndex && r.keepRunning == s.keepRunning
  {
  }

  /**
   * createParty leaves its loop with keepRunning cleared exactly when no party
   * can be formed; by then it has dispatched min(t0, h0, d0 / 3) parties.
   */
  lemma DispatchedWhenStopped(s: State, t0: int, h0: int, d0: int)
    requires Inv(s, t0, h0, d0) && !s.keepRunning
    ensures |s.threads| == Formations(t0, h0, d0)
  {
  }

  /**
   * Each formation uses up 5 players, so while keepRunning holds fewer than
   * min(t0, h0, d0 / 3) parties have been dispatched, and each admission pass
   * either lowers tanks + healers + dps by 5 or ends the loop.
   */
  lemma AdmitMakesProgress(s: State, duration: int, t0: int, h0: int, d0: int)
    requires Inv(s, t0, h0, d0) && s.keepRunning && MayAdmit(s)
    ensures CanFormParty(s.tanks, s.healers, s.dps) ==> |s.threads| < Formations(t0, h0, d0)
    ensures var r := Admit(s, duration);
      (r.keepRunning && r.tanks + r.healers + r.dps == s.tanks + s.healers + s.dps - 5) ||
      (!r.keepRunning && |r.threads| == Formations(t0, h0, d0))
  {
    AdmitFormsWholeParty(s, duration, t0, h0, d0);
    AdmitPreservesInv(s, duration, t0, h0, d0);
  }

  /**
   * Once every dispatched thread has finished: no slot is active,
   * InstancesActive is 0, and the summary totals are the number of threads
   * and the sum of their durations.
   */
  lemma SummaryWhenAllDone(s: State, t0: int, h0: int, d0: int)
    requires Inv(s, t0, h0, d0)
    requires forall k :: 0 <= k < |s.threads| ==> s.threads[k].phase == Done
    ensures s.instancesActive == 0
    ensures forall i :: 0 <= i < |s.stats| ==> !s.stats[i].isActive
    ensures Sum(Counts(s.stats)) == |s.threads|
    ensures Sum(Times(s.stats)) == Sum(Durations(s.threads))
  {
    assert Unfinished(s.threads) == {};
    SumConstant(StartedFlags(s.threads), 1);
    assert StartedTimes(s.threads) == Durations(s.threads);
  }

  /**
   * Among threads whose durations all lie in [lo, hi], those that started in
   * slot i number between 0 and all of them, and their durations add up to
   * between lo and hi times that number.
   */
  lemma {:induction false} ServedBounds(ws: seq<Worker>, i: int, lo: int, hi: int)
    requires forall k :: 0 <= k < |ws| ==> lo <= ws[k].duration <= hi
    ensures 0 <= Sum(ServedFlags(ws, i)) <= |ws|
    ensures lo * Sum(ServedFlags(ws, i)) <= Sum(ServedTimes(ws, i)) <= hi * Sum(ServedFlags(ws, i))
  {
    if |ws| > 0 {
      var init := ws[..|ws| - 1];
      assert ServedFlags(ws, i)[..|ws| - 1] == ServedFlags(init, i);
      assert ServedTimes(ws, i)[..|ws| - 1] == ServedTimes(init, i);
      ServedBounds(init, i, lo, hi);
      var c := Sum(ServedFlags(init, i));
      assert lo * (c + 1) == lo * c + lo && hi * (c + 1) == hi * c + hi;
    }
  }

  /**
   * In every state of a run whose durations lie in [t1, t2], each slot has
   * served between 0 and all dispatched parties, and its total time is
   * between t1 and t2 seconds per party it served.
   */
  lemma SlotTotalsWithinBounds(s: State, t0: int, h0: int, d0: int, t1: int, t2: int)
    requires Inv(s, t0, h0, d0)
    requires forall k :: 0 <= k < |s.threads| ==> t1 <= s.threads[k].duration <= t2
    ensures forall i :: 0 <= i < |s.stats| ==>
      0 <= s.stats[i].count <= |s.threads| &&
      t1 * s.stats[i].count <= s.stats[i].totalTime <= t2 * s.stats[i].count
  {
    forall i | 0 <= i < |s.stats|
      ensures 0 <= s.stats[i].count <= |s.threads|
      ensures t1 * s.stats[i].count <= s.stats[i].totalTime <= t2 * s.stats[i].count
    {
      ServedBounds(s.threads, i, t1, t2);
    }
  }

  // ---------------------------------------------------------------------------
  // Runs: any interleaving of the three locked sections
  // ---------------------------------------------------------------------------

  /** One locked section taken by createParty or by one runInstance thread. */
  ghost predicate Step(s: State, s': State) {
    (s.keepRunning && MayAdmit(s) && s.nextInstanceIndex >= 0 &&
       exists duration :: s' == Admit(s, duration)) ||
    (exists k :: 0 <= k < |s.threads| && s.threads[k].phase == Spawned &&
       0 <= s.threads[k].slot < |s.stats| && s' == Start(s, k)) ||
    (exists k :: 0 <= k < |s.threads| && s.threads[k].phase == Running &&
       0 <= s.threads[k].slot < |s.stats| && s' == Finish(s, k))
  }

  /** A run of the simulation from main()'s initial state. */
  ghost predicate IsRun(trace: seq<State>, n: nat, t0: int, h0: int, d0: int) {
    |trace| > 0 && trace[0] == Initial(n, t0, h0, d0) &&
    forall i :: 0 <= i < |trace| - 1 ==> Step(trace[i], trace[i + 1])
  }

  /** No new thread is dispatched once keepRunning has been cleared. */
  lemma StopIsFinal(s: State, s': State)
    requires Step(s, s') && !s.keepRunning
    ensures !s'.keepRunning && |s'.threads| == |s.threads|
  {
  }

  /**
   * Along a run, once keepRunning is cleared it stays cleared and the
   * number of dispatched threads no longer grows.
   */
  lemma {:induction false} StoppedStaysStopped(trace: seq<State>, n: nat, t0: int, h0: int, d0: int, i: int, j: int)
    requires IsRun(trace, n, t0, h0, d0)
    requires 0 <= i <= j < |trace| && !trace[i].keepRunning
    ensures !trace[j].keepRunning && |trace[j].threads| == |trace[i].threads|
    decreases j - i
  {
    if i < j {
      StoppedStaysStopped(trace, n, t0, h0, d0, i, j - 1);
      StopIsFinal(trace[j - 1], trace[j]);
    }
  }

  lemma StepPreservesInv(s: State, s': State, t0: int, h0: int, d0: int)
    requires Inv(s, t0, h0, d0) && Step(s, s')
    ensures Inv(s', t0, h0, d0)
  {
    if s.keepRunning && MayAdmit(s) && s.nextInstanceIndex >= 0 &&
       exists duration :: s' == Admit(s, duration) {
      var duration :| s' == Admit(s, duration);
      AdmitPreservesInv(s, duration, t0, h0, d0);
    } else if exists k :: 0 <= k < |s.threads| && s.threads[k].phase == Spawned &&
                0 <= s.threads[k].slot < |s.stats| && s' == Start(s, k) {
      var k :| 0 <= k < |s.threads| && s.threads[k].phase == Spawned &&
               0 <= s.threads[k].slot < |s.stats| && s' == Start(s, k);
      StartPreservesInv(s, k, t0, h0, d0);
    } else {
      var k :| 0 <= k < |s.threads| && s.threads[k].phase == Running &&
               0 <= s.threads[k].slot < |s.stats| && s' == Finish(s, k);
      FinishPreservesInv(s, k, t0, h0, d0);
    }
  }

  /**
   * Whatever the interleaving, every state of a run satisfies the invariant:
   * role counters stay non-negative, 0 <= InstancesActive <= InstancesMax, the
   * cursor stays in range, and the totals match the started threads.
   */
  lemma {:induction false} RunKeepsInv(trace: seq<State>, n: nat, t0: int, h0: int, d0: int)
    requires t0 >= 0 && h0 >= 0 && d0 >= 0
    requires IsRun(trace, n, t0, h0, d0)
    ensures forall i :: 0 <= i < |trace| ==> Inv(trace[i], t0, h0, d0)
  {
    if |trace| == 1 {
      InitialInv(n, t0, h0, d0);
    } else {
      var prefix := trace[..|trace| - 1];
      assert IsRun(prefix, n, t0, h0, d0) by {
        forall i | 0 <= i < |prefix| - 1 ensures Step(prefix[i], prefix[i + 1]) {
          assert Step(trace[i], trace[i + 1]);
        }
      }
      RunKeepsInv(prefix, n, t0, h0, d0);
      assert Inv(trace[|trace| - 2], t0, h0, d0) by {
        assert trace[|trace| - 2] == prefix[|trace| - 2];
      }
      StepPreservesInv(trace[|trace| - 2], trace[|trace| - 1], t0, h0, d0);
      forall i | 0 <= i < |trace| ensures Inv(trace[i], t0, h0, d0) {
        if i < |trace| - 1 {
          assert trace[i] == prefix[i];
        }
      }
    }
  }

  /**
   * A run with 3 slots, 4 tanks, 4 healers and 12 dps in which two threads
   * end up running in slot 0 at once (see TwoThreadsCanShareASlot).
   */
  function SharedSlotRun(i: nat): State
    requires i <= 8
  {
    var E, one := EmptyStats, InstanceStats(1, 1, false);
    var w0, w1, w2 := Worker(0, 1, Spawned), Worker(1, 1, Spawned), Worker(2, 1, Spawned);
    match i
    case 0 => State(4, 4, 12, [E, E, E], 0, 0, true, [])
    case 1 => State(3, 3, 9, [E, E, E], 1, 1, true, [w0])
    case 2 => State(2, 2, 6, [E, E, E], 2, 2, true, [w0, w1])
    case 3 => State(2, 2, 6, [E, one.(isActive := true), E], 2, 2, true, [w0, w1.(phase := Running)])
    case 4 => State(2, 2, 6, [E, one, E], 1, 2, true, [w0, w1.(phase := Done)])
    case 5 => State(1, 1, 3, [E, one, E], 2, 0, true, [w0, w1.(phase := Done), w2])
    case 6 => State(0, 0, 0, [E, one, E], 3, 1, true, [w0, w1.(phase := Done), w2, w0])
    case 7 => State(0, 0, 0, [one.(isActive := true), one, E], 3, 1, true,
                    [w0.(phase := Running), w1.(phase := Done), w2, w0])
    case 8 => State(0, 0, 0, [InstanceStats(2, 2, true), one, E], 3, 1, true,
                    [w0.(phase := Running), w1.(phase := Done), w2, w0.(phase := Running)])
  }

  lemma SharedSlotRun01()
    ensures SharedSlotRun(0) == Initial(3, 4, 4, 12)
    ensures Step(SharedSlotRun(0), SharedSlotRun(1))
  {
    assert FreeOffset(SharedSlotRun(0).stats, 0, 0) == Some(0);
    assert SharedSlotRun(1) == Admit(SharedSlotRun(0), 1);
  }

  lemma SharedSlotRun12()
    ensures Step(SharedSlotRun(1), SharedSlotRun(2))
  {
    assert FreeOffset(SharedSlotRun(1).stats, 1, 0) == Some(0);
    assert SharedSlotRun(2) == Admit(SharedSlotRun(1), 1);
  }

  lemma SharedSlotRun23()
    ensures Step(SharedSlotRun(2), SharedSlotRun(3))
  {
    assert SharedSlotRun(3) == Start(SharedSlotRun(2), 1);
  }

  lemma SharedSlotRun34()
    ensures Step(SharedSlotRun(3), SharedSlotRun(4))
  {
    assert SharedSlotRun(4) == Finish(SharedSlotRun(3), 1);
  }

  lemma SharedSlotRun45()
    ensures Step(SharedSlotRun(4), SharedSlotRun(5))
  {
    assert FreeOffset(SharedSlotRun(4).stats, 2, 0) == Some(0);
    assert SharedSlotRun(5) == Admit(SharedSlotRun(4), 1);
  }

  lemma SharedSlotRun56()
    ensures Step(SharedSlotRun(5), SharedSlotRun(6))
  {
    assert FreeOffset(SharedSlotRun(5).stats, 0, 0) == Some(0);
    assert SharedSlotRun(6) == Admit(SharedSlotRun(5), 1);
  }

  lemma SharedSlotRun67()
    ensures Step(SharedSlotRun(6), SharedSlotRun(7))
  {
    assert SharedSlotRun(7) == Start(SharedSlotRun(6), 0);
  }

  lemma SharedSlotRun78()
    ensures Step(SharedSlotRun(7), SharedSlotRun(8))
  {
    assert SharedSlotRun(8) == Start(SharedSlotRun(7), 3);
  }

  lemma SharedSlotSteps()
    ensures forall i :: 0 <= i < 8 ==> Step(SharedSlotRun(i), SharedSlotRun(i + 1))
  {
    forall i | 0 <= i < 8 ensures Step(SharedSlotRun(i), SharedSlotRun(i + 1)) {
      if i == 0 { SharedSlotRun01(); }
      else if i == 1 { SharedSlotRun12(); }
      else if i == 2 { SharedSlotRun23(); }
      else if i == 3 { SharedSlotRun34(); }
      else if i == 4 { SharedSlotRun45(); }
      else if i == 5 { SharedSlotRun56(); }
      else if i == 6 { SharedSlotRun67(); }
      else { SharedSlotRun78(); }
    }
  }

  /**
   * A slot is marked active only when its thread starts, so the scan can hand
   * a slot whose thread has been dispatched but has not started yet to a
   * second party. With 3 slots: parties go to slots 0 and 1, the thread in
   * slot 1 runs and ends, a party goes to slot 2, and the next scan, starting
   * at slot 0, finds it not active and dispatches a second thread there. Both
   * threads then run in slot 0 at the same time.
   */
  lemma TwoThreadsCanShareASlot() returns (trace: seq<State>)
    ensures IsRun(trace, 3, 4, 4, 12)
    ensures var last := trace[|trace| - 1];
      |last.threads| == 4 &&
      last.threads[0].slot == 0 && last.threads[0].phase == Running &&
      last.threads[3].slot == 0 && last.threads[3].phase == Running
  {
    SharedSlotSteps();
    trace := seq(9, i requires 0 <= i < 9 => SharedSlotRun(i));
    assert trace[0] == SharedSlotRun(0) && trace[8] == SharedSlotRun(8);
  }
}

=== FILE: simulation.dfy ===
/**
 * The simulator's globals as one object, with createParty, the two locked
 * sections of runInstance, the join loop and main() as methods that update
 * it in place. Admission, StartInstance and FinishInstance are proved equal
 * to the transitions Admit, Start and Finish of module Dungeon, and
 * RunToEnd, AdmitNext and Pass to their compositions, so every property
 * proved there holds of the object. CreateParty and JoinAll are proved to
 * keep the invariant Inv and to end in the state main() relies on.
 *
 * The scheduler is one particular interleaving: createParty runs until its
 * wait predicate fails, and then the oldest thread still pending runs both
 * its locked sections (that is the notify that wakes createParty up again).
 * The random durations come in as a sequence, one per party formed.
 */
module Simulation {
  import opened Wrappers
  import opened Dungeon
  import Config

  class Simulator {
    var tanks: int
    var healers: int
    var dps: int
    /** instanceStats; its length is InstancesMax. */
    const instanceStats: array<InstanceStats>
    var instancesActive: int
    /** createParty's static cursor. */
    var nextInstanceIndex: int
    var keepRunning: bool
    /** dThreads, with how far each thread has got. */
    var dThreads: seq<Worker>
    /** The role counts main() read from the configuration. */
    ghost const t0: int
    ghost const h0: int
    ghost const d0: int

    ghost function Snapshot(): State
      reads this, instanceStats
    {
      State(tanks, healers, dps, instanceStats[..], instancesActive,
            nextInstanceIndex, keepRunning, dThreads)
    }

    ghost predicate Valid()
      reads this, instanceStats
    {
      Inv(Snapshot(), t0, h0, d0)
    }

    /** main(): n empty slots, the role counts, nothing dispatched yet. */
    constructor (n: nat, t: int, h: int, d: int)
      requires t >= 0 && h >= 0 && d >= 0
      ensures Snapshot() == Initial(n, t, h, d)
      ensures t0 == t && h0 == h && d0 == d
      ensures Valid() && fresh(instanceStats)
    {
      tanks, healers, dps := t, h, d;
      instanceStats := new InstanceStats[n](_ => EmptyStats);
      instancesActive, nextInstanceIndex := 0, 0;
      keepRunning := true;
      dThreads := [];
      t0, h0, d0 := t, h, d;
      new;
      assert instanceStats[..] == seq(n, _ => EmptyStats);
      InitialInv(n, t, h, d);
    }

    /**
     * One pass of createParty's loop once its wait is over: form a party and
     * dispatch it to the first free slot, or stop. `duration` is the value
     * the distribution yields when a slot is found.
     */
    method Admission(duration: int)
      requires Valid() && keepRunning && MayAdmit(Snapshot())
      modifies this
      ensures Snapshot() == Admit(old(Snapshot()), duration)
      ensures Valid()
    {
      AdmitPreservesInv(Snapshot(), duration, t0, h0, d0);
      if tanks >= 1 && healers >= 1 && dps >= 3 {
        tanks := tanks - 1;
        healers := healers - 1;
        dps := dps - 3;
        var found := FindFreeSlot(instanceStats, nextInstanceIndex);
        if found.Some? {
          var index := found.value;
          instancesActive := instancesActive + 1;
          dThreads := dThreads + [Worker(index, duration, Spawned)];
          nextInstanceIndex := (index + 1) % instanceStats.Length;
        }
      } else {
        keepRunning := false;
      }
    }

    /** The first locked section of runInstance, taken by thread k. */
    method StartInstance(k: int)
      requires Valid() && 0 <= k < |dThreads| && dThreads[k].phase == Spawned
      modifies this, instanceStats
      ensures 0 <= old(dThreads[k].slot) < instanceStats.Length
      ensures Snapshot() == Start(old(Snapshot()), k)
      ensures Valid()
    {
      StartPreservesInv(Snapshot(), k, t0, h0, d0);
      var id, duration := dThreads[k].slot, dThreads[k].duration;
      var st := instanceStats[id];
      instanceStats[id] := InstanceStats(st.count + 1, st.totalTime + duration, true);
      dThreads := dThreads[k := dThreads[k].(phase := Running)];
    }

    /** The second locked section of runInstance, taken by thread k. */
    method FinishInstance(k: int)
      requires Valid() && 0 <= k < |dThreads| && dThreads[k].phase == Running
      modifies this, instanceStats
      ensures 0 <= old(dThreads[k].slot) < instanceStats.Length
      ensures Snapshot() == Finish(old(Snapshot()), k)
      ensures Valid()
    {
      FinishPreservesInv(Snapshot(), k, t0, h0, d0);
      var id := dThreads[k].slot;
      instanceStats[id] := instanceStats[id].(isActive := false);
      instancesActive := instancesActive - 1;
      dThreads := dThreads[k := dThreads[k].(phase := Done)];
    }

    /**
     * What holds between passes of createParty's loop when the durations are
     * taken in order and threads below `oldest` have ended while the others
     * have not started.
     */
    ghost predicate Dispatching(durations: seq<int>, oldest: int)
      reads this, instanceStats
    {
      Valid() &&
      0 <= oldest <= |dThreads| &&
      (forall k :: 0 <= k < oldest ==> dThreads[k].phase == Done) &&
      (forall k :: oldest <= k < |dThreads| ==> dThreads[k].phase == Spawned) &&
      |dThreads| <= |durations| &&
      Durations(dThreads) == durations[..|dThreads|]
    }

    /**
     * One pass of createParty's loop: when its wait predicate holds, an
     * admission pass; otherwise the oldest pending thread runs to its end and
     * its notify wakes createParty up.
     */
    method Pass(durations: seq<int>, oldest: int) returns (oldest': int)
      requires Dispatching(durations, oldest) && keepRunning
      requires instanceStats.Length > 0 || Formations(t0, h0, d0) == 0
      requires |durations| >= Formations(t0, h0, d0)
      modifies this, instanceStats
      ensures Dispatching(durations, oldest')
      ensures old(MayAdmit(Snapshot())) ==>
        oldest' == oldest &&
        Snapshot() == Admit(old(Snapshot()), NextDuration(durations, |old(dThreads)|))
      ensures !old(MayAdmit(Snapshot())) ==>
        oldest' == oldest + 1 &&
        old(oldest < |dThreads| && dThreads[oldest].phase == Spawned &&
            0 <= dThreads[oldest].slot < instanceStats.Length) &&
        Snapshot() == Finish(Start(old(Snapshot()), oldest), oldest)
      ensures tanks < old(tanks) ||
        (tanks == old(tanks) && |dThreads| - oldest' < old(|dThreads|) - oldest) ||
        (tanks == old(tanks) && |dThreads| - oldest' == old(|dThreads|) - oldest && !keepRunning)
    {
      oldest' := oldest;
      if oldest == |dThreads| {
        NothingPending(Snapshot(), t0, h0, d0);
      }
      if instancesActive < instanceStats.Length || !CanFormParty(tanks, healers, dps) {
        AdmitNext(durations, oldest);
      } else {
        RunToEnd(oldest);
        oldest' := oldest + 1;
      }
    }

    /** An admission pass that takes the next duration in order. */
    method AdmitNext(durations: seq<int>, oldest: int)
      requires Dispatching(durations, oldest) && keepRunning && MayAdmit(Snapshot())
      requires |durations| >= Formations(t0, h0, d0)
      modifies this
      ensures Dispatching(durations, oldest)
      ensures Snapshot() == Admit(old(Snapshot()), NextDuration(durations, |old(dThreads)|))
      ensures tanks < old(tanks) || (tanks == old(tanks) && !keepRunning)
    {
      AdmitMakesProgress(Snapshot(), 0, t0, h0, d0);
      var duration := NextDuration(durations, |dThreads|);
      ghost var before := dThreads;
      Admission(duration);
      if dThreads != before {
        assert Durations(dThreads) == Durations(before) + [duration];
      }
    }

    /**
     * createParty, with the threads it wakes up for run to completion one at
     * a time, oldest first. It returns once no party can be formed, having
     * dispatched min(t, h, d / 3) parties with the given durations in order.
     * With no slot at all and a party that could be formed the source waits
     * forever; that case is excluded.
     */
    method CreateParty(durations: seq<int>)
      requires Valid() && keepRunning && dThreads == []
      requires instanceStats.Length > 0 || Formations(t0, h0, d0) == 0
      requires |durations| >= Formations(t0, h0, d0)
      modifies this, instanceStats
      ensures Valid() && !keepRunning
      ensures |dThreads| == Formations(t0, h0, d0)
      ensures Durations(dThreads) == durations[..|dThreads|]
      ensures tanks == t0 - |dThreads| && healers == h0 - |dThreads| && dps == d0 - 3 * |dThreads|
    {
      var oldest := 0;
      while keepRunning
        invariant Dispatching(durations, oldest)
        decreases tanks, |dThreads| - oldest, if keepRunning then 1 else 0
      {
        oldest := Pass(durations, oldest);
      }
      DispatchedWhenStopped(Snapshot(), t0, h0, d0);
    }

    /** Thread k takes both its locked sections, one after the other. */
    method RunToEnd(k: int)
      requires Valid() && 0 <= k < |dThreads| && dThreads[k].phase == Spawned
      modifies this, instanceStats
      ensures Valid()
      ensures 0 <= old(dThreads[k].slot) < instanceStats.Length
      ensures Snapshot() == Finish(Start(old(Snapshot()), k), k)
      ensures dThreads == old(dThreads)[k := old(dThreads[k]).(phase := Done)]
      ensures tanks == old(tanks) && healers == old(healers) && dps == old(dps)
      ensures keepRunning == old(keepRunning)
    {
      StartInstance(k);
      FinishInstance(k);
    }

    /**
     * `join` on thread k: whatever of runInstance the thread has still to
     * do, it does; a finished thread is left as it is.
     */
    method Join(k: int)
      requires Valid() && 0 <= k < |dThreads|
      modifies this, instanceStats
      ensures Valid()
      ensures old(dThreads[k].phase) == Spawned ==> Snapshot() == Finish(Start(old(Snapshot()), k), k)
      ensures old(dThreads[k].phase) == Running ==> Snapshot() == Finish(old(Snapshot()), k)
      ensures old(dThreads[k].phase) == Done ==> Snapshot() == old(Snapshot())
      ensures dThreads == old(dThreads)[k := old(dThreads[k]).(phase := Done)]
      ensures tanks == old(tanks) && healers == old(healers) && dps == old(dps)
      ensures keepRunning == old(keepRunning) && nextInstanceIndex == old(nextInstanceIndex)
    {
      if dThreads[k].phase == Spawned {
        RunToEnd(k);
      } else if dThreads[k].phase == Running {
        FinishInstance(k);
      }
    }

    /** main()'s join loop: every dispatched thread runs to its end. */
    method JoinAll()
      requires Valid()
      modifies this, instanceStats
      ensures Valid()
      ensures |dThreads| == |old(dThreads)| && Durations(dThreads) == Durations(old(dThreads))
      ensures forall k :: 0 <= k < |dThreads| ==> dThreads[k] == old(dThreads)[k].(phase := Done)
      ensures tanks == old(tanks) && healers == old(healers) && dps == old(dps)
      ensures keepRunning == old(keepRunning) && nextInstanceIndex == old(nextInstanceIndex)
    {
      var k := 0;
      while k < |dThreads|
        invariant Valid() && 0 <= k <= |dThreads|
        invariant |dThreads| == |old(dThreads)| && Durations(dThreads) == Durations(old(dThreads))
        invariant forall j :: 0 <= j < k ==> dThreads[j] == old(dThreads)[j].(phase := Done)
        invariant forall j :: k <= j < |dThreads| ==> dThreads[j] == old(dThreads)[j]
        invariant tanks == old(tanks) && healers == old(healers) && dps == old(dps)
        invariant keepRunning == old(keepRunning) && nextInstanceIndex == old(nextInstanceIndex)
      {
        Join(k);
        k := k + 1;
      }
    }
  }

  /**
   * The value the distribution yields for party number `i`: the i-th
   * duration. It is only used when the party finds a slot, and then `i` is
   * in range.
   */
  function NextDuration(durations: seq<int>, i: int): int {
    if 0 <= i < |durations| then durations[i] else 0
  }

  /**
   * The bounded for-loop of createParty: from the cursor, the first slot
   * that is not active, visiting each slot once.
   */
  method FindFreeSlot(stats: array<InstanceStats>, cursor: int) returns (found: Option<int>)
    requires cursor >= 0
    ensures found == FirstFree(stats[..], cursor)
    ensures found.Some? ==> 0 <= found.value < stats.Length && !stats[found.value].isActive
    ensures found.None? ==> forall i :: 0 <= i < stats.Length ==> stats[i].isActive
  {
    FirstFreeSpec(stats[..], cursor);
    var i := 0;
    while i < stats.Length
      invariant 0 <= i <= stats.Length
      invariant FreeOffset(stats[..], cursor, 0) == FreeOffset(stats[..], cursor, i)
    {
      var index := (cursor + i) % stats.Length;
      if !stats[index].isActive {
        return Some(index);
      }
      i := i + 1;
    }
    return None;
  }

  /** Every thread has ended, so InstancesActive is 0. */
  lemma NothingPending(s: State, t0: int, h0: int, d0: int)
    requires Inv(s, t0, h0, d0)
    requires forall k :: 0 <= k < |s.threads| ==> s.threads[k].phase == Done
    ensures s.instancesActive == 0
    ensures CanFormParty(s.tanks, s.healers, s.dps) ==> |s.threads| < Formations(t0, h0, d0)
  {
    assert Unfinished(s.threads) == {};
  }

  lemma {:induction false} SumBounds(xs: seq<int>, lo: int, hi: int)
    requires forall i :: 0 <= i < |xs| ==> lo <= xs[i] <= hi
    ensures lo * |xs| <= Sum(xs) <= hi * |xs|
  {
    if |xs| > 0 {
      SumBounds(xs[..|xs| - 1], lo, hi);
    }
  }

  /**
   * main(): read the parameters, run createParty, join every thread and
   * return the per-instance summary that writeSummaryStats prints, together
   * with the players left over. `durations` are the values the uniform
   * distribution over [t1, t2] yields, in order; `dispatched` are the
   * threads in the order createParty spawned them.
   */
  method Simulate(config: map<string, int>, durations: seq<int>)
    returns (summary: seq<InstanceStats>, tanksLeft: int, healersLeft: int, dpsLeft: int,
             ghost dispatched: seq<Worker>)
    requires Config.ValidConfig(config)
    requires config["n"] > 0 || Formations(config["t"], config["h"], config["d"]) == 0
    requires |durations| >= Formations(config["t"], config["h"], config["d"])
    requires forall i :: 0 <= i < |durations| ==> config["t1"] <= durations[i] <= config["t2"]
    ensures var f := Formations(config["t"], config["h"], config["d"]);
      |summary| == config["n"] &&
      (forall i :: 0 <= i < |summary| ==> !summary[i].isActive) &&
      Sum(Counts(summary)) == f &&
      Sum(Times(summary)) == Sum(durations[..f]) &&
      config["t1"] * f <= Sum(Times(summary)) <= config["t2"] * f &&
      tanksLeft == config["t"] - f && healersLeft == config["h"] - f && dpsLeft == config["d"] - 3 * f
    ensures forall i :: 0 <= i < |summary| ==>
      0 <= summary[i].count <= Formations(config["t"], config["h"], config["d"]) &&
      config["t1"] * summary[i].count <= summary[i].totalTime <= config["t2"] * summary[i].count
    ensures |dispatched| == Formations(config["t"], config["h"], config["d"])
    ensures Durations(dispatched) == durations[..|dispatched|]
    ensures forall k :: 0 <= k < |dispatched| ==>
      dispatched[k].phase == Done && 0 <= dispatched[k].slot < |summary|
    ensures SlotsServed(summary, dispatched)
  {
    var sim := new Simulator(config["n"], config["t"], config["h"], config["d"]);
    sim.CreateParty(durations);
    sim.JoinAll();
    SummaryWhenAllDone(sim.Snapshot(), sim.t0, sim.h0, sim.d0);
    summary := sim.instanceStats[..];
    tanksLeft, healersLeft, dpsLeft := sim.tanks, sim.healers, sim.dps;
    dispatched := sim.dThreads;
    ghost var f := |sim.dThreads|;
    assert Durations(sim.dThreads) == durations[..f];
    SumBounds(durations[..f], config["t1"], config["t2"]);
    forall k | 0 <= k < f ensures config["t1"] <= sim.dThreads[k].duration <= config["t2"] {
      assert sim.dThreads[k].duration == Durations(sim.dThreads)[k];
    }
    SlotTotalsWithinBounds(sim.Snapshot(), sim.t0, sim.h0, sim.d0, config["t1"], config["t2"]);
  }
}

=== FILE: wrappers.dfy ===
/** Small failure-carrying datatypes shared by the other modules. */
module Wrappers {

  datatype Option<+T> = None | Some(value: T)

  datatype Result<+T, +E> = Ok(value: T) | Err(error: E)
}
